=== FILE: README.md ===
# Eclipse sound-trigger library — a Dafny model of its playback core

Eclipse loads a fixed catalog of named drum sounds and plays them on demand. On top
of single-shot playback it offers two timed constructs. A **loop** plays a cyclic
list of sounds one entry per tick, for a bounded or unbounded number of passes. A
**sequence** plays a pattern of beats at a tempo, once or looping over the whole
pattern. Both are driven by a self-rearming `setTimeout`. This project models, in
`eclipse.js`:

- the loop engine (`createLoop`: `start`, `stop`, `pause`, `resume`, `_scheduleNext`);
- the sequence engine (`createSequence`: `start`, `stop`, `pause`, `resume`, `_playBeat`, `setBPM`);
- the not-loaded guard of `play` and the fan-out and option merging of `playMultiple`;
- the `_loops` / `_sequences` registries with their id counters, and `stopAll`;
- the load-readiness counter (`init`, `_loadSound`, `isReady`) and its callback queue.

Every instance is an immutable record: its configuration, copied when the instance
is created, plus its closure state.
Every event (`Start`, `Stop`, `Pause`, `Resume`, and `Fire` for the timer) is a pure
step function. Each step returns the new record and the list of `play` calls it made,
each call being a sound name with its merged options. Live timers are a count
(`timers`), not real time. Arming a timer adds one. `clearTimeout` removes at most
one. `Fire` uses one up, and does nothing when none is live. So "at most one
outstanding timer" is a property the model has to prove, not something its encoding
assumes.

Files:

- `wrappers.dfy`: `Option`, `Result`.
- `voice.dfy`: option spreading, `play`, `playMultiple`.
- `schedule.dfy`: events, transitions, the generic trace runner `Run`, timer cancellation.
- `loop_engine.dfy`: the loop engine.
- `sequence_engine.dfy`: the sequence engine.
- `registry.dfy`: the two registries and `stopAll`.
- `loader.dfy`: the readiness counter.

Where the documented intent of the library and its code disagree, the model follows the code:

- `setBPM` assigns to the `const` bindings `bpm` and `beatDuration`, so it always
  throws a `TypeError`. It does not take effect on the next interval.
- For a loop, `stop` and `pause` have the same effect. Neither resets the counters,
  so `resume` after `stop` continues from where the loop was. A loop that has
  completed its passes stops again at once, without playing.
- A sequence's `stop` rewinds the cursor to 0, including when a one-shot sequence
  ends on its own.
- An interval of 0 becomes 500 ms through `||`. Of the non-positive intervals, only a
  negative one gets past the default unchanged. A repetition count of 0 means unbounded. A negative count
  stays bounded and plays nothing.
- There is no separate Idle/Paused/Stopped state, only `isPlaying`.
- `isReady()` already holds before `init`, because both counters start at 0
  (`Loader.ReadyBeforeInit`).

## Model

| member | source | states |
|---|---|---|
| Voice.Request | eclipse.js:122-126 | an entry's call keeps its name; a bare name takes the shared options; an object's own volume/delay/duration override the shared ones field by field |
| Voice.Play | eclipse.js:83-112 | `play` yields no voice exactly when the name has no decoded buffer; otherwise volume defaults to 1.0, delay to 0, and a stop is scheduled only for a non-zero duration, at the start offset plus the duration |
| Voice.PlayMultiple | eclipse.js:115-133 | a non-array yields an empty result; an array yields no more voices than entries, each for a loaded name |
| Voice.PlayMultipleKeepsLoadedInOrder | eclipse.js:115-133 | the result has exactly one voice per loaded entry, in input order, each the voice of that entry's call with its fields over the shared options |
| Voice.AllLoadedPlaysEveryEntry | eclipse.js:122-130 | when every entry is loaded, the result pairs up one-to-one with the entries, in order |
| Voice.EntryVolumeWins | eclipse.js:124 | `[{name: "crashCymbal", volume: 0.5}]` under shared volume 1.0 plays at 0.5 |
| Voice.UnknownSoundIsNull | eclipse.js:84-87 | playing a name that was never decoded returns null |
| Schedule.Cancel | eclipse.js:161-164 | `clearTimeout` on the stored handle cancels at most one timer, leaving none when at most one was live |
| LoopEngine.Create | eclipse.js:135-148 | an absent or zero interval becomes 500, an absent or zero repetition count means unbounded, volume is 1.0 by default, a single sound wrapped into a list; the loop starts idle at entry 0, pass 0, with no timer |
| LoopEngine.CreatedIsConsistent | eclipse.js:141-144 | a new loop satisfies the timer discipline |
| LoopEngine.Stop | eclipse.js:159-166 | `stop` leaves the loop not playing with no live timer and keeps both counters |
| LoopEngine.Pause | eclipse.js:168-175 | `pause` has exactly the effect of `stop` on a loop |
| LoopEngine.Tick | eclipse.js:185-212 | `_scheduleNext` plays the entry at the cursor only while playing and within the bound; at the bound it stops without playing. A tick that plays advances the position repetition·L+index by exactly one, so the cursor steps on and a wrap completes a pass. It then re-arms one more timer when still within the bound, and otherwise stops and clears the timer. Afterwards it is playing exactly when still within the bound |
| LoopEngine.Start | eclipse.js:150-157 | `start` is a no-op while playing; otherwise it resets the counters and plays entry 0 at once, unless the bound is below one pass |
| LoopEngine.Resume | eclipse.js:177-183 | `resume` is a no-op while playing; otherwise it plays the entry at the kept cursor at once; a loop past its bound stays silent and unchanged |
| LoopEngine.Fire | eclipse.js:208 | a firing with no live timer changes nothing |
| LoopEngine.Step | eclipse.js:150-212 | every event keeps the configuration, keeps the timer discipline, and makes at most one `play` call |
| LoopEngine.TimerDiscipline | eclipse.js:150-212 | after any trace of events at most one timer is live, one exactly while playing, with at most one call per event |
| LoopEngine.StartedLoopPlaysInOrder | eclipse.js:185-211 | started and then driven only by its timer, after m firings a loop has made the first m+1 calls of its cycle in list order, its counters count those ticks, and it plays with one timer exactly while within its bound |
| LoopEngine.BoundedLoopPlaysExactly | eclipse.js:185-211 | a loop of N passes over L entries makes exactly N·L calls, entry k mod L at tick k, then rests not playing with no timer, pass counter N and cursor 0, whatever firings follow |
| LoopEngine.BoundedPassEndsAtRest | eclipse.js:185-211 | the start and the first N·L−1 firings of a loop bounded to N passes make all N·L calls and leave it stopped with no timer, pass counter N, cursor 0, so a further firing changes nothing |
| LoopEngine.PauseResumePlaysKeptCursor | eclipse.js:168-183 | `pause` then `resume` on a playing loop plays the entry at the kept cursor immediately |
| LoopEngine.StopIsIdempotent | eclipse.js:159-166 | a second `stop` changes nothing, and `stop` on a never-started loop changes nothing |
| LoopEngine.HiHatExample | eclipse.js:135-211 | `["closedHiHat", "openHiHat"]` with 3 repetitions makes six alternating calls and then stops |
| SequenceEngine.Create | eclipse.js:223-236 | an absent or zero bpm becomes 120, no looping and volume 1.0 by default; the sequence starts idle at slot 0 with no timer |
| SequenceEngine.CreatedIsConsistent | eclipse.js:230-232 | a new sequence satisfies the timer discipline |
| SequenceEngine.BeatCalls | eclipse.js:276-286 | a falsy beat (including `""`) or unrecognised beat is silence; an array makes one call per name at the sequence volume; a string one call at the sequence volume; an object one call whose own fields override the sequence volume |
| SequenceEngine.Stop | eclipse.js:246-254 | `stop` leaves the sequence not playing with no live timer and the cursor at 0 |
| SequenceEngine.Pause | eclipse.js:256-263 | `pause` leaves the sequence not playing with no live timer and the cursor kept |
| SequenceEngine.Tick | eclipse.js:273-300 | `_playBeat` sounds the beat at the cursor only while playing; before the last slot it re-arms at the next slot; past it, it wraps to 0 and re-arms when looping, and otherwise stops at slot 0 |
| SequenceEngine.Start | eclipse.js:238-244 | `start` is a no-op while playing; otherwise it sounds slot 0 at once |
| SequenceEngine.Resume | eclipse.js:265-271 | `resume` is a no-op while playing; otherwise it sounds the slot at the kept cursor at once |
| SequenceEngine.Fire | eclipse.js:293-298 | a firing with no live timer changes nothing |
| SequenceEngine.SetBpm | eclipse.js:306-310 | `setBPM` always throws, because it assigns to constant bindings |
| SequenceEngine.Step | eclipse.js:238-300 | every event keeps the configuration and the timer discipline |
| SequenceEngine.TimerDiscipline | eclipse.js:238-300 | after any trace of events at most one timer is live, one exactly while playing, and the cursor is 0 or inside the pattern (for an empty pattern, the cursor is always 0, which is not inside it) |
| SequenceEngine.StartedSequencePlaysInOrder | eclipse.js:273-299 | started and then driven only by its timer, after m firings a sequence has sounded slots 0 … m mod P in order; a looping one plays on at slot (m+1) mod P; a one-shot one plays until its last slot and then stops at slot 0 |
| SequenceEngine.OneShotSequencePlaysOnce | eclipse.js:273-296 | a non-looping sequence of P slots makes the calls of `pattern[0]`, …, `pattern[P-1]` in that order (`SlotsUpTo`), each slot once, and then rests not playing, cursor 0, no timer, whatever firings follow; an empty pattern sounds nothing and rests right after the start |
| SequenceEngine.OneShotPassEndsAtRest | eclipse.js:288-296 | the start and the first P−1 firings of a non-looping sequence sound its whole pattern and leave it stopped with the cursor at 0 and no timer, so a further firing changes nothing |
| SequenceEngine.ScoreWithinOnePass | eclipse.js:276-290 | within the first P ticks, tick k sounds slot k itself |
| SequenceEngine.PauseKeepsStopRewinds | eclipse.js:246-271 | `resume` after `pause` sounds the slot at the kept cursor, while `resume` after `stop` sounds slot 0 |
| SequenceEngine.StopIsIdempotent | eclipse.js:246-254 | a second `stop` changes nothing, and `stop` on a never-started sequence changes nothing |
| SequenceEngine.BassSnareExample | eclipse.js:273-299 | looping `["bassDrum", [], "snareDrum"]` sounds bass drum, nothing, snare drum, then bass drum again |
| Loader.Init | eclipse.js:29-51 | `init` fails and changes nothing when no audio context can be made; otherwise it sets the total to the catalog size and queues the callback behind earlier ones, leaving the count alone |
| Loader.Complete | eclipse.js:58-74 | a failed fetch or decode changes nothing; a decode stores the buffer and counts one; the success that makes the count equal the total runs the queue in order and empties it |
| Loader.CallbacksRunOnceInOrder | eclipse.js:58-81 | before readiness, the count grows by exactly the successes; the queued callbacks run once, all of them in registration order, exactly when the successes reach the total, and the queue is then empty; ready exactly when the count equals the total |
| Loader.NothingRunsOnceSettled | eclipse.js:61-66 | once the count has reached the total no outcome runs a callback or touches the queue |
| Loader.InitThenLoad | eclipse.js:29-81 | from a fresh start, the `init` callback runs once exactly when there have been as many successful decodes as catalog sounds, which is exactly when the library is ready |
| Loader.BuffersAfter | eclipse.js:60-61 | after any run of load outcomes the decoded buffers are the earlier ones plus exactly the names that decoded; failures add nothing |
| Loader.InitThenLoadEveryName | eclipse.js:29-81 | from a fresh start, with each outcome about a different catalog sound, only catalog names get buffers, and the `init` callback has run (once) exactly when every catalog sound has a decoded buffer, which is exactly when `isReady` holds |
| Loader.ReadyBeforeInit | eclipse.js:79-81 | `isReady` (`Loader.IsReady`: the success count equals the total) holds before `init` |
| Registry.CreateLoop | eclipse.js:135-221 | a new loop gets the loop counter's value as its id, one never issued before; the counter goes up by one; the loop registered under it is the freshly created, idle `LoopEngine.Create` of the given sounds and options; no other entry and not the sequence counter changes |
| Registry.CreateSequence | eclipse.js:223-315 | a new sequence gets the sequence counter's value as its id, one never issued before; the counter goes up by one; the sequence registered under it is the freshly created, idle `SequenceEngine.Create` of the given pattern and options; no other entry and not the loop counter changes |
| Registry.EmptyIsValid | eclipse.js:24-27 | the registries as the library starts (no loops, no sequences, both counters 0) satisfy `Valid`, the invariant that creation, `stopAll` and driving an instance keep |
| Registry.StopAll | eclipse.js:317-320 | every registered loop and sequence ends not playing with no live timer; nothing is removed; loops keep their counters, sequences rewind to 0 |
| Registry.StopAllIsIdempotent | eclipse.js:317-320 | `stopAll` twice is `stopAll` once |
| Registry.StopAllAtRestChangesNothing | eclipse.js:317-320 | `stopAll` over never-started or stopped instances changes nothing |
| Registry.DriveLoop | eclipse.js:219-220 | an event on one registered loop replaces that loop by the engine's step result and makes that step's calls; every other loop, every sequence and both counters are unchanged; the registry stays valid |
| Registry.DriveSequence | eclipse.js:313-314 | an event on one registered sequence replaces that sequence by the engine's step result and makes that step's calls; every other sequence, every loop and both counters are unchanged; the registry stays valid |

## Left out

- Web Audio and XHR plumbing: creating the context, buffer sources and gain nodes,
  `decodeAudioData`, `XMLHttpRequest`, and resuming a suspended context. These are
  foreign I/O. `play` is abstracted to "the set of decoded names → an optional voice
  record", and each finished load is an outcome event.
- Wall-clock time, `setTimeout` delays and drift. A timer is a count of live timers,
  and firing is an explicit event. The interval, the tempo and the volumes are
  `real` values that are only defaulted, copied and overridden. The floating-point
  beat duration `(60 / bpm) * 1000` is not computed.
- `setMasterVolume`: it creates a gain node that is never connected, so it has no
  effect.
- `getContext` and the module export wrapper: no logic.
- Empty loop sound lists. `currentSound.name` would throw on `undefined`, so a loop
  record must have at least one entry (`LoopEngine.WfLoop`).
- NaN option values, fractional repetition counts, and option fields explicitly set
  to `undefined`. An explicit `undefined` would override a shared field in JavaScript.
  The model treats it as absent.
- Malformed list entries: `null`, objects without `name`, and non-string elements
  inside an array beat. These would throw or play the key `"undefined"`.
- Patterns that are not arrays. `createSequence` stores the `pattern` as given. With
  `null`, `start` throws on reading a slot after the sequence is already marked
  playing. A string plays its characters one by one as sound names. A sequence's
  pattern is a list of beats here.
- Concurrency. Everything runs on one thread. `Registry.DriveLoop` and
  `Registry.DriveSequence` let any interleaving of instances be written down, but no
  property is stated across instances.
- The identity of the objects `play` returns. A voice is a value record.
- Voice.Play: the start and stop times are stated as offsets from "now", not as
  absolute context times, because the audio clock is left out.
- Voice.Play: `_buffers` is a plain object, so the not-loaded guard also lets through
  names inherited from `Object.prototype` (`"constructor"`, `"toString"`, `"valueOf"`,
  `"hasOwnProperty"`, `"__proto__"` and the like). For those, `play` throws: assigning
  a function to `source.buffer` fails, or, before `init`, the missing context does.
  The model treats every name it is given as an own key and returns no voice for
  these names. `play` also throws when the start time or the stop time ends up
  negative (a large negative `delay` or `duration`). The model does not represent
  these throws.
- LoopEngine.Tick, SequenceEngine.Tick: the engine lemmas assume every `play` call
  returns normally. A throw out of `play` inside `_scheduleNext` or `_playBeat`
  would leave the instance marked playing with no timer armed. `start` and `resume`
  then do nothing. `LoopEngine.Consistent` and `SequenceEngine.Consistent` rule
  that state out only under this assumption.
- Loader.Complete: queued callbacks are assumed to return normally. With
  `forEach`, a callback that throws skips the callbacks after it, and the queue is
  not emptied. The count has then already reached the total and never reaches it
  again, so those callbacks never run. `Loader.CallbacksRunOnceInOrder` states the
  normal-return case only.
- Loader.InitThenLoadEveryName: states a single `init`. A second `init` fetches
  every sound again but keeps the success count, so the count can reach the total
  again through repeated decodes of the same names while a sound that failed the
  first time still has no buffer. Readiness is then stated only as a count
  (`Loader.CallbacksRunOnceInOrder`).
- Aliasing of the configuration. A loop created from an array keeps the caller's
  array itself as `sounds`, and a sequence always keeps the caller's `pattern`. Both
  are public and are read again on every tick. A caller who changes or shortens them
  changes what later ticks play, or makes the loop throw on a missing entry. The
  model copies the configuration into the record when the instance is created and
  keeps it fixed (`SameConfig`).
- Console logging: the `console.error` messages for a missing Web Audio API, a
  decode or fetch error, a sound that is not loaded, and a non-array
  `playMultiple` argument. They have no effect on state or results.

=== FILE: loader.dfy ===
/** The load-readiness counter of `init` / `_loadSound` / `isReady`: how many sounds
    have decoded, out of how many were requested, and the callbacks waiting for all
    of them. The network fetch and the decoder are outside the model; each finished
    load arrives as one outcome event. */
module Loader {
  import opened Wrappers

  /** A registered `init` callback, identified by its registration. */
  type Callback = nat

  /** `_audioContext` (present or not), `_totalSounds`, `_loadedCount`, `_buffers`
      (the names with a decoded buffer) and `_loadCallbacks`. */
  datatype Loader = Loader(hasContext: bool, total: nat, loadedCount: nat, buffers: set<string>, callbacks: seq<Callback>)

  /** The library before `init`. */
  const Fresh: Loader := Loader(false, 0, 0, {}, [])

  /** `isReady`: the success count has reached the total. */
  predicate IsReady(l: Loader) {
    l.loadedCount == l.total
  }

  /** `init(callback)` over a catalog of sound names: without an audio context and no
      way to make one it fails (returns false) and changes nothing; otherwise it sets
      the total to the catalog size and queues the callback, if any, behind those
      already queued. The loads it starts finish later, as `Outcome` events. */
  function Init(l: Loader, catalog: set<string>, audioAvailable: bool, callback: Option<Callback>): (r: Option<Loader>)
    ensures r.None? <==> !l.hasContext && !audioAvailable
    ensures r.Some? ==> r.value.hasContext && r.value.total == |catalog|
    ensures r.Some? ==> r.value.callbacks == l.callbacks + (if callback.Some? then [callback.value] else [])
    ensures r.Some? ==> r.value.loadedCount == l.loadedCount && r.value.buffers == l.buffers
  {
    if !l.hasContext && !audioAvailable then None
    else Some(l.(hasContext := true, total := |catalog|,
                 callbacks := if callback.Some? then l.callbacks + [callback.value] else l.callbacks))
  }

  /** How one load ends: decoded, a decode error, or a network error. */
  datatype Outcome = Decoded(name: string) | DecodeFailed(name: string) | FetchFailed(name: string)

  /** The loader after an outcome, and the callbacks run on the way, in order. */
  datatype Settled = Settled(after: Loader, fired: seq<Callback>)

  /** One finished load. A failure is only logged: nothing changes. A decode stores the
      buffer and counts one success; the success that makes the count equal the
      total runs every queued callback in registration order and empties the queue. */
  function Complete(l: Loader, o: Outcome): (s: Settled)
    ensures !o.Decoded? ==> s == Settled(l, [])
    ensures o.Decoded? ==> s.after.loadedCount == l.loadedCount + 1 && s.after.buffers == l.buffers + {o.name}
    ensures o.Decoded? && l.loadedCount + 1 == l.total ==> s.fired == l.callbacks && s.after.callbacks == []
    ensures o.Decoded? && l.loadedCount + 1 != l.total ==> s.fired == [] && s.after.callbacks == l.callbacks
    ensures s.after.total == l.total && s.after.hasContext == l.hasContext
  {
    match o
    case Decoded(name) =>
      var counted := l.(buffers := l.buffers + {name}, loadedCount := l.loadedCount + 1);
      if counted.loadedCount == counted.total then Settled(counted.(callbacks := []), l.callbacks)
      else Settled(counted, [])
    case DecodeFailed(_) => Settled(l, [])
    case FetchFailed(_) => Settled(l, [])
  }

  /** A sequence of finished loads, in order. */
  function CompleteAll(l: Loader, os: seq<Outcome>): Settled
    decreases |os|
  {
    if os == [] then Settled(l, [])
    else
      var first := Complete(l, os[0]);
      var rest := CompleteAll(first.after, os[1..]);
      Settled(rest.after, first.fired + rest.fired)
  }

  /** The number of successful decodes among the outcomes. */
  function Successes(os: seq<Outcome>): nat
    decreases |os|
  {
    if os == [] then 0 else (if os[0].Decoded? then 1 else 0) + Successes(os[1..])
  }

  /** Before every sound has decoded: after any further outcomes the count has grown by
      exactly the successes (failures never count); the queued callbacks have run
      exactly once, all of them in registration order, if and only if the successes
      reached the total, and the queue is then empty; and the loader is ready
      exactly when the successes made the count equal the total. */
  lemma {:induction false} CallbacksRunOnceInOrder(l: Loader, os: seq<Outcome>)
    requires l.loadedCount < l.total
    ensures var s := CompleteAll(l, os);
            var reached := l.loadedCount + Successes(os) >= l.total;
            && s.after.loadedCount == l.loadedCount + Successes(os)
            && s.fired == (if reached then l.callbacks else [])
            && s.after.callbacks == (if reached then [] else l.callbacks)
            && (IsReady(s.after) <==> l.loadedCount + Successes(os) == l.total)
    decreases |os|
  {
    if os != [] {
      var first := Complete(l, os[0]);
      if first.after.loadedCount < first.after.total {
        CallbacksRunOnceInOrder(first.after, os[1..]);
      } else {
        NothingRunsOnceSettled(first.after, os[1..]);
      }
    }
  }

  /** Once the count has reached the total, no further outcome runs a callback or
      touches the queue; further successes only push the count past the total. */
  lemma {:induction false} NothingRunsOnceSettled(l: Loader, os: seq<Outcome>)
    requires l.loadedCount >= l.total
    ensures var s := CompleteAll(l, os);
            && s.fired == []
            && s.after.callbacks == l.callbacks
            && s.after.loadedCount == l.loadedCount + Successes(os)
            && s.after.total == l.total
    decreases |os|
  {
    if os != [] {
      NothingRunsOnceSettled(Complete(l, os[0]).after, os[1..]);
    }
  }

  /** From a fresh start: `init` with a callback over a non-empty catalog, then the
      outcomes of the loads. The callback runs, once, exactly when there are as many
      successes as catalog sounds, and that is exactly when the library is ready. */
  lemma InitThenLoad(catalog: set<string>, cb: Callback, os: seq<Outcome>)
    requires |catalog| >= 1 && Successes(os) <= |catalog|
    ensures var l := Init(Fresh, catalog, true, Some(cb)).value;
            var s := CompleteAll(l, os);
            && (s.fired == [cb] <==> Successes(os) == |catalog|)
            && (s.fired == [] <==> Successes(os) < |catalog|)
            && (IsReady(s.after) <==> Successes(os) == |catalog|)
  {
    var l := Init(Fresh, catalog, true, Some(cb)).value;
    CallbacksRunOnceInOrder(l, os);
  }

  /** The names that decoded among the outcomes. */
  function DecodedNames(os: seq<Outcome>): (names: set<string>)
    ensures forall n :: n in names ==> exists i :: 0 <= i < |os| && os[i].Decoded? && os[i].name == n
    ensures forall i :: 0 <= i < |os| && os[i].Decoded? ==> os[i].name in names
    decreases |os|
  {
    if os == [] then {}
    else
      var rest := DecodedNames(os[1..]);
      assert forall i :: 1 <= i < |os| ==> os[i] == os[1..][i - 1];
      if os[0].Decoded? then {os[0].name} + rest else rest
  }

  /** Each outcome is about a different sound. */
  predicate DistinctNames(os: seq<Outcome>) {
    forall i, j :: 0 <= i < j < |os| ==> os[i].name != os[j].name
  }

  /** The buffers after a run of outcomes: the ones there before, plus every name that
      decoded. */
  lemma {:induction false} BuffersAfter(l: Loader, os: seq<Outcome>)
    ensures CompleteAll(l, os).after.buffers == l.buffers + DecodedNames(os)
    decreases |os|
  {
    if os != [] {
      BuffersAfter(Complete(l, os[0]).after, os[1..]);
    }
  }

  /** When every outcome is about a different sound, each success adds a new name. */
  lemma {:induction false} DistinctSuccessesCount(os: seq<Outcome>)
    requires DistinctNames(os)
    ensures |DecodedNames(os)| == Successes(os)
    decreases |os|
  {
    if os != [] {
      var rest := os[1..];
      assert DistinctNames(rest) by {
        forall i, j | 0 <= i < j < |rest| ensures rest[i].name != rest[j].name {
          assert rest[i] == os[i + 1] && rest[j] == os[j + 1];
        }
      }
      DistinctSuccessesCount(rest);
      forall i | 0 <= i < |rest| ensures rest[i].name != os[0].name {
        assert rest[i] == os[i + 1];
      }
    }
  }

  /** A subset is no larger than its superset, and equals it when as large. */
  lemma {:induction false} SubsetSize<T>(a: set<T>, b: set<T>)
    requires a <= b
    ensures |a| <= |b|
    ensures |a| == |b| ==> a == b
    decreases |b|
  {
    if b != {} {
      var x :| x in b;
      SubsetSize(a - {x}, b - {x});
      assert b == (b - {x}) + {x};
      if x in a {
        assert a == (a - {x}) + {x};
      } else {
        assert a - {x} == a;
      }
    }
  }

  /** From a fresh start: `init` with a callback over a non-empty catalog, then the
      outcomes of loads of different catalog sounds (one load per sound, some of them
      possibly still in flight). The callback runs exactly when every catalog sound
      has a decoded buffer, and that is exactly when the library is ready. */
  lemma InitThenLoadEveryName(catalog: set<string>, cb: Callback, os: seq<Outcome>)
    requires |catalog| >= 1
    requires DistinctNames(os)
    requires forall i :: 0 <= i < |os| ==> os[i].name in catalog
    ensures var l := Init(Fresh, catalog, true, Some(cb)).value;
            var s := CompleteAll(l, os);
            && s.after.buffers <= catalog
            && (s.fired == [cb] <==> catalog <= s.after.buffers)
            && (s.fired == [] <==> !(catalog <= s.after.buffers))
            && (IsReady(s.after) <==> catalog <= s.after.buffers)
  {
    var l := Init(Fresh, catalog, true, Some(cb)).value;
    BuffersAfter(l, os);
    DecodedCoverage(catalog, os);
    InitThenLoad(catalog, cb, os);
  }

  /** Loads of different catalog sounds decode every catalog sound exactly when the
      successes number as many as the catalog. */
  lemma DecodedCoverage(catalog: set<string>, os: seq<Outcome>)
    requires DistinctNames(os)
    requires forall i :: 0 <= i < |os| ==> os[i].name in catalog
    ensures DecodedNames(os) <= catalog
    ensures Successes(os) <= |catalog|
    ensures catalog <= DecodedNames(os) <==> Successes(os) == |catalog|
  {
    var decoded := DecodedNames(os);
    forall n | n in decoded ensures n in catalog {
      var i :| 0 <= i < |os| && os[i].Decoded? && os[i].name == n;
    }
    DistinctSuccessesCount(os);
    SubsetSize(decoded, catalog);
  }

  /** Before `init`, `isReady` already holds: both counters are 0. */
  lemma ReadyBeforeInit()
    ensures IsReady(Fresh)
  {
  }
}

=== FILE: loop_engine.dfy ===
/** The loop engine of `createLoop`: a cyclic sound list played one entry per tick,
    for a bounded or unbounded number of passes, driven by a self-rearming timer. */
module LoopEngine {
  import opened Wrappers
  import opened Voice
  import Schedule

  /** The repetition bound: `Infinity`, or a count. */
  datatype Limit = Unbounded | Times(n: int)

  /** The `options` argument of `createLoop`; `None` is an absent field. */
  datatype LoopOptions = LoopOptions(interval: Option<real>, repetitions: Option<int>, volume: Option<real>)

  /** The `sounds` argument of `createLoop`: one entry, or an array of entries. */
  datatype Sounds = One(entry: SoundRef) | List(entries: seq<SoundRef>)

  /** One loop instance: its fixed configuration, then its closure state
      (`isPlaying`, `currentRepetition`, `soundIndex`, and the live timers). */
  datatype Loop = Loop(
    id: nat, sounds: seq<SoundRef>, interval: real, limit: Limit, volume: real,
    playing: bool, repetition: nat, index: nat, timers: nat)

  const DefaultInterval: real := 500.0

  /** `createLoop`: `interval || 500`, `repetitions || Infinity`, volume 1.0 by default;
      the instance starts idle with both counters at 0 and no timer. */
  function Create(id: nat, sounds: Sounds, options: LoopOptions): (l: Loop)
    ensures l.id == id
    ensures l.sounds == (if sounds.One? then [sounds.entry] else sounds.entries)
    ensures options.interval.None? || options.interval == Some(0.0) ==> l.interval == DefaultInterval
    ensures options.interval.Some? && options.interval != Some(0.0) ==> l.interval == options.interval.value
    ensures l.limit.Unbounded? <==> options.repetitions.None? || options.repetitions == Some(0)
    ensures l.limit.Times? ==> options.repetitions == Some(l.limit.n)
    ensures l.volume == (if options.volume.Some? then options.volume.value else 1.0)
    ensures !l.playing && l.repetition == 0 && l.index == 0 && l.timers == 0
  {
    var interval := if options.interval.None? || options.interval == Some(0.0) then DefaultInterval
                    else options.interval.value;
    var limit := if options.repetitions.None? || options.repetitions == Some(0) then Unbounded
                 else Times(options.repetitions.value);
    Loop(id, if sounds.One? then [sounds.entry] else sounds.entries, interval, limit,
         options.volume.GetOr(1.0), false, 0, 0, 0)
  }

  /** The sound list is non-empty and the cursor points into it. */
  predicate WellFormed(l: Loop) {
    1 <= |l.sounds| && l.index < |l.sounds|
  }

  /** Fewer passes than the bound have completed. */
  predicate WithinBound(l: Loop) {
    l.limit.Unbounded? || l.repetition < l.limit.n
  }

  /** The timer discipline: at most one live timer, one exactly while playing,
      and the pass counter never beyond the bound. */
  predicate Consistent(l: Loop) {
    && l.timers <= 1
    && (l.playing <==> l.timers == 1)
    && (l.playing ==> WithinBound(l))
    && (l.limit.Times? ==> l.repetition <= (if l.limit.n < 0 then 0 else l.limit.n))
  }

  /** The fixed configuration is the same in both records. */
  predicate SameConfig(a: Loop, b: Loop) {
    a.id == b.id && a.sounds == b.sounds && a.interval == b.interval && a.limit == b.limit && a.volume == b.volume
  }

  /** The call made for the entry at position i: its fields override `{ volume }`. */
  function EntryCall(l: Loop, i: nat): PlayRequest
    requires i < |l.sounds|
  {
    Request(VolumeOnly(l.volume), l.sounds[i])
  }

  /** `stop`: not playing, the live timer cancelled; the counters are left as they are. */
  function Stop(l: Loop): (t: Schedule.Transition<Loop>)
    ensures SameConfig(l, t.after)
    ensures !t.after.playing && t.emitted == []
    ensures l.timers <= 1 ==> t.after.timers == 0
    ensures t.after.index == l.index && t.after.repetition == l.repetition
  {
    Schedule.Transition(l.(playing := false, timers := Schedule.Cancel(l.timers)), [])
  }

  /** `pause`: the same effect on a loop as `stop` -- neither touches the counters. */
  function Pause(l: Loop): (t: Schedule.Transition<Loop>)
    ensures t == Stop(l)
  {
    Schedule.Transition(l.(timers := Schedule.Cancel(l.timers)).(playing := false), [])
  }

  /** `_scheduleNext`: when playing and within the bound, play the entry at the cursor,
      move the cursor on (a wrap completes one pass), then re-arm if still within the
      bound and stop otherwise; at the bound already, stop without playing. */
  function Tick(l: Loop): (t: Schedule.Transition<Loop>)
    requires WellFormed(l)
    ensures WellFormed(t.after) && SameConfig(l, t.after)
    ensures !l.playing ==> t == Schedule.Transition(l, [])
    ensures l.playing && !WithinBound(l) ==> t == Stop(l)
    ensures l.playing && WithinBound(l) ==> t.emitted == [EntryCall(l, l.index)]
    ensures l.playing && WithinBound(l) ==> t.after.playing == WithinBound(t.after)
    ensures l.playing && WithinBound(l) ==>
              t.after.repetition * |l.sounds| + t.after.index == l.repetition * |l.sounds| + l.index + 1
    ensures l.playing && WithinBound(l) ==>
              t.after.timers == (if t.after.playing then l.timers + 1 else Schedule.Cancel(l.timers))
  {
    if !l.playing then Schedule.Transition(l, [])
    else if l.limit.Times? && l.repetition >= l.limit.n then Stop(l)
    else
      var call := EntryCall(l, l.index);
      var wrapped := l.index + 1 >= |l.sounds|;
      var moved := l.(index := if wrapped then 0 else l.index + 1,
                      repetition := if wrapped then l.repetition + 1 else l.repetition);
      if moved.limit.Unbounded? || moved.repetition < moved.limit.n
      then Schedule.Transition(moved.(timers := moved.timers + 1), [call])
      else Schedule.Transition(Stop(moved).after, [call])
  }

  /** `start`: a no-op while playing; otherwise reset both counters and tick at once. */
  function Start(l: Loop): (t: Schedule.Transition<Loop>)
    requires WellFormed(l)
    ensures WellFormed(t.after) && SameConfig(l, t.after)
    ensures l.playing ==> t == Schedule.Transition(l, [])
    ensures !l.playing && (l.limit.Unbounded? || l.limit.n >= 1) ==> t.emitted == [EntryCall(l, 0)]
    ensures !l.playing && l.limit.Times? && l.limit.n < 1 ==> t.emitted == [] && !t.after.playing
  {
    if l.playing then Schedule.Transition(l, [])
    else Tick(l.(playing := true, repetition := 0, index := 0))
  }

  /** `resume`: a no-op while playing; otherwise tick at once from the kept cursor,
      so a paused loop plays its next entry immediately, and a loop that already
      completed its passes stops again without playing. */
  function Resume(l: Loop): (t: Schedule.Transition<Loop>)
    requires WellFormed(l)
    ensures WellFormed(t.after) && SameConfig(l, t.after)
    ensures l.playing ==> t == Schedule.Transition(l, [])
    ensures !l.playing && WithinBound(l) ==> t.emitted == [EntryCall(l, l.index)]
    ensures !l.playing && !WithinBound(l) ==> t.emitted == [] && !t.after.playing
    ensures !l.playing && !WithinBound(l) && l.timers == 0 ==> t.after == l
  {
    if l.playing then Schedule.Transition(l, [])
    else Tick(l.(playing := true))
  }

  /** The timer fires: with no live timer nothing happens; otherwise it is used up
      and `_scheduleNext` runs. */
  function Fire(l: Loop): (t: Schedule.Transition<Loop>)
    requires WellFormed(l)
    ensures WellFormed(t.after) && SameConfig(l, t.after)
    ensures l.timers == 0 ==> t == Schedule.Transition(l, [])
  {
    if l.timers == 0 then Schedule.Transition(l, [])
    else Tick(l.(timers := l.timers - 1))
  }

  /** A loop whose sound list is non-empty and whose cursor points into it: the only
      loops the engine ever holds (an empty list would make `_scheduleNext` throw). */
  type WfLoop = l: Loop | WellFormed(l)
    witness Loop(0, [Named("")], DefaultInterval, Unbounded, 1.0, false, 0, 0, 0)

  /** One event; every event keeps the timer discipline and makes at most one call. */
  function Step(l: WfLoop, e: Schedule.Event): (t: Schedule.Transition<WfLoop>)
    ensures SameConfig(l, t.after)
    ensures Consistent(l) ==> Consistent(t.after)
    ensures |t.emitted| <= 1
  {
    match e
    case Start => Start(l)
    case Stop => Stop(l)
    case Pause => Pause(l)
    case Resume => Resume(l)
    case Fire => Fire(l)
  }

  /** Along any trace of events from creation, at most one timer is live, and one is
      live exactly while the loop is playing; each event makes at most one call. */
  lemma TimerDiscipline(l: WfLoop, events: seq<Schedule.Event>)
    requires Consistent(l)
    ensures var t := Schedule.Run<WfLoop>(Step, l, events);
            && Consistent(t.after)
            && t.after.timers <= 1
            && (t.after.playing <==> t.after.timers == 1)
            && |t.emitted| <= |events|
  {
    Schedule.RunKeeps(Step, (x: WfLoop) => Consistent(x), l, events);
    Schedule.RunEmitsAtMostOnePerEvent(Step, l, events);
  }

  /** A freshly created loop satisfies the timer discipline. */
  lemma CreatedIsConsistent(id: nat, sounds: Sounds, options: LoopOptions)
    ensures Consistent(Create(id, sounds, options))
  {
  }

  /** The calls of the first `count` ticks of a loop: entry k mod L at tick k, each
      under the loop's volume. */
  function Cycle(l: Loop, count: nat): (calls: seq<PlayRequest>)
    requires 1 <= |l.sounds|
    ensures |calls| == count
  {
    seq(count, k requires 0 <= k < count => EntryCall(l, k % |l.sounds|))
  }

  /** A loop started from rest and then driven only by its timer: after the start and
      m firings it has made exactly the first m+1 calls of its cycle, in list order;
      the cursor and pass counter count those ticks; and it is still playing, with
      its one timer live, exactly while fewer passes than the bound have completed. */
  lemma {:induction false} StartedLoopPlaysInOrder(l: WfLoop, m: nat)
    requires !l.playing && l.timers == 0
    requires l.limit.Unbounded? || (l.limit.n >= 1 && m < l.limit.n * |l.sounds|)
    ensures var t := Schedule.Run<WfLoop>(Step, l, [Schedule.Start] + Schedule.Fires(m));
            && SameConfig(l, t.after)
            && t.emitted == Cycle(l, m + 1)
            && t.after.repetition * |l.sounds| + t.after.index == m + 1
            && (t.after.playing <==> WithinBound(t.after))
            && t.after.timers == (if t.after.playing then 1 else 0)
    decreases m
  {
    if m == 0 {
      assert Schedule.Run<WfLoop>(Step, l, [Schedule.Start] + Schedule.Fires(0)) == Start(l) by {
        assert [Schedule.Start] + Schedule.Fires(0) == [Schedule.Start];
      }
      StartPlaysFirstEntry(l);
    } else {
      assert l.limit.Unbounded? || m - 1 < l.limit.n * |l.sounds|;
      StartedLoopPlaysInOrder(l, m - 1);
      var prefix := [Schedule.Start] + Schedule.Fires(m - 1);
      var before := Schedule.Run<WfLoop>(Step, l, prefix);
      var fire := Fire(before.after);
      assert Schedule.Run<WfLoop>(Step, l, [Schedule.Start] + Schedule.Fires(m))
             == Schedule.Transition(fire.after, before.emitted + fire.emitted) by {
        Schedule.RunThenFire<WfLoop>(Step, l, m - 1);
      }
      FireAdvances(l, before.after, m);
      CycleSnoc(l, m);
    }
  }

  lemma CycleSnoc(l: Loop, m: nat)
    requires 1 <= |l.sounds|
    ensures Cycle(l, m + 1) == Cycle(l, m) + [EntryCall(l, m % |l.sounds|)]
  {
  }

  /** The first tick after `start`: entry 0, counting as tick 1. */
  lemma StartPlaysFirstEntry(l: WfLoop)
    requires !l.playing && l.timers == 0
    requires l.limit.Unbounded? || l.limit.n >= 1
    ensures var t := Start(l);
            && SameConfig(l, t.after)
            && t.emitted == Cycle(l, 1)
            && t.after.repetition * |l.sounds| + t.after.index == 1
            && (t.after.playing <==> WithinBound(t.after))
            && t.after.timers == (if t.after.playing then 1 else 0)
  {
  }

  /** A firing after m ticks plays entry m mod L and counts as tick m+1. */
  lemma FireAdvances(l: Loop, before: WfLoop, m: nat)
    requires 1 <= |l.sounds| && SameConfig(l, before)
    requires before.repetition * |l.sounds| + before.index == m
    requires l.limit.Unbounded? || m < l.limit.n * |l.sounds|
    requires before.playing <==> WithinBound(before)
    requires before.timers == (if before.playing then 1 else 0)
    ensures var t := Fire(before);
            && SameConfig(l, t.after)
            && t.emitted == [EntryCall(l, m % |l.sounds|)]
            && t.after.repetition * |l.sounds| + t.after.index == m + 1
            && (t.after.playing <==> WithinBound(t.after))
            && t.after.timers == (if t.after.playing then 1 else 0)
  {
    var len := |l.sounds|;
    BeforeBound(l, before, m);
    assert before.index == m % len by {
      Schedule.DivModUnique(m, len, before.repetition, before.index);
    }
    if before.index + 1 == len {
      assert (before.repetition + 1) * len + 0 == m + 1;
    }
  }

  /** Helper: m ticks with m below the pass bound leave the loop within its bound. */
  lemma BeforeBound(l: Loop, before: Loop, m: nat)
    requires 1 <= |l.sounds| && before.limit == l.limit && before.index < |l.sounds|
    requires l.limit.Unbounded? || m < l.limit.n * |l.sounds|
    requires before.repetition * |l.sounds| + before.index == m
    ensures WithinBound(before)
  {
  }

  /** A bounded loop of N passes over L entries, started and then driven only by its
      timer, makes exactly N*L calls -- entry k mod L at tick k -- and then rests: not
      playing, no timer, both counters at their final values, whatever further
      firings arrive. */
  lemma BoundedLoopPlaysExactly(l: WfLoop, m: nat)
    requires !l.playing && l.timers == 0
    requires l.limit.Times? && l.limit.n >= 1
    requires m + 1 >= l.limit.n * |l.sounds|
    ensures var t := Schedule.Run<WfLoop>(Step, l, [Schedule.Start] + Schedule.Fires(m));
            && t.emitted == Cycle(l, l.limit.n * |l.sounds|)
            && !t.after.playing && t.after.timers == 0
            && t.after.repetition == l.limit.n && t.after.index == 0
  {
    BoundedPassEndsAtRest(l);
    Schedule.StartedRunSettles<WfLoop>(Step, l, l.limit.n * |l.sounds| - 1, m);
  }

  /** The start and the first N*L-1 firings of a bounded loop make all N*L calls and
      leave it at rest, so a further firing does nothing. */
  lemma BoundedPassEndsAtRest(l: WfLoop)
    requires !l.playing && l.timers == 0
    requires l.limit.Times? && l.limit.n >= 1
    ensures l.limit.n * |l.sounds| >= 1
    ensures var t := Schedule.Run<WfLoop>(Step, l, [Schedule.Start] + Schedule.Fires(l.limit.n * |l.sounds| - 1));
            && t.emitted == Cycle(l, l.limit.n * |l.sounds|)
            && !t.after.playing && t.after.timers == 0
            && t.after.repetition == l.limit.n && t.after.index == 0
            && Step(t.after, Schedule.Fire) == Schedule.Transition(t.after, [])
  {
    var len := |l.sounds|;
    var total := l.limit.n * len;
    assert total >= 1 by {
      assert l.limit.n * len >= 1 * len;
    }
    StartedLoopPlaysInOrder(l, total - 1);
    var t := Schedule.Run<WfLoop>(Step, l, [Schedule.Start] + Schedule.Fires(total - 1));
    assert t.after.repetition == l.limit.n && t.after.index == 0 by {
      Schedule.DivModUnique(total, len, l.limit.n, 0);
      Schedule.DivModUnique(total, len, t.after.repetition, t.after.index);
    }
  }

  /** `pause` then `resume` on a playing loop plays the entry at the kept cursor at
      once, without waiting out the interval, and keeps the timer discipline. */
  lemma PauseResumePlaysKeptCursor(l: WfLoop)
    requires Consistent(l) && l.playing
    ensures var t := Schedule.Run<WfLoop>(Step, l, [Schedule.Pause, Schedule.Resume]);
            && t.emitted == [EntryCall(l, l.index)]
            && Consistent(t.after)
  {
    Schedule.RunPair<WfLoop>(Step, l, Schedule.Pause, Schedule.Resume);
  }

  /** `stop` on a stopped or never-started loop changes nothing further. */
  lemma StopIsIdempotent(l: Loop)
    requires Consistent(l)
    ensures Stop(Stop(l).after) == Stop(l)
    ensures !l.playing ==> Stop(l).after == l
  {
  }

  /** `createLoop(["closedHiHat", "openHiHat"], {interval: 200, repetitions: 3})`, started:
      six calls alternating the two names, then it stops by itself. */
  lemma HiHatExample(id: nat)
    ensures var l := Create(id, List([Named("closedHiHat"), Named("openHiHat")]),
                                LoopOptions(Some(200.0), Some(3), None));
            && WellFormed(l)
            && var t := Schedule.Run<WfLoop>(Step, l, [Schedule.Start] + Schedule.Fires(5));
            var c := PlayRequest("closedHiHat", VolumeOnly(1.0));
            var o := PlayRequest("openHiHat", VolumeOnly(1.0));
            && t.emitted == [c, o, c, o, c, o]
            && !t.after.playing && t.after.timers == 0
  {
    var l := Create(id, List([Named("closedHiHat"), Named("openHiHat")]), LoopOptions(Some(200.0), Some(3), None));
    BoundedLoopPlaysExactly(l, 5);
    var calls := Cycle(l, 6);
    assert calls[0] == EntryCall(l, 0 % 2);
    assert calls[1] == EntryCall(l, 1 % 2);
    assert calls[2] == EntryCall(l, 2 % 2);
    assert calls[3] == EntryCall(l, 3 % 2);
    assert calls[4] == EntryCall(l, 4 % 2);
    assert calls[5] == EntryCall(l, 5 % 2);
  }
}

=== FILE: registry.dfy ===
/** The registries `_loops` and `_sequences`, their id counters, and `stopAll`.
    Entries are added on creation and never removed. */
module Registry {
  import LoopEngine
  import SequenceEngine
  import Schedule

  datatype Registry = Registry(
    loops: map<nat, LoopEngine.WfLoop>,
    sequences: map<nat, SequenceEngine.Sequence>,
    loopCounter: nat,
    sequenceCounter: nat)

  /** The library before any loop or sequence is created. */
  const Empty: Registry := Registry(map[], map[], 0, 0)

  /** The library starts from a valid registry. */
  lemma EmptyIsValid()
    ensures Valid(Empty)
  {
  }

  /** Every instance sits under its own id, below the counter that issued it, and
      keeps the timer discipline. */
  predicate Valid(r: Registry) {
    && (forall id :: id in r.loops ==>
          id < r.loopCounter && r.loops[id].id == id && LoopEngine.Consistent(r.loops[id]))
    && (forall id :: id in r.sequences ==>
          id < r.sequenceCounter && r.sequences[id].id == id && SequenceEngine.Consistent(r.sequences[id]))
  }

  /** A registry after a creation, and the id the new instance got. */
  datatype Created = Created(registry: Registry, id: nat)

  /** `createLoop`: the next id from the counter, never issued before; the new idle loop
      is registered under it and nothing else changes. */
  function CreateLoop(r: Registry, sounds: LoopEngine.Sounds, options: LoopEngine.LoopOptions): (c: Created)
    requires sounds.One? || |sounds.entries| >= 1
    ensures c.id == r.loopCounter && c.registry.loopCounter == r.loopCounter + 1
    ensures c.registry.sequenceCounter == r.sequenceCounter
    ensures Valid(r) ==> c.id !in r.loops && Valid(c.registry)
    ensures c.registry.loops.Keys == r.loops.Keys + {c.id}
    ensures forall id :: id in r.loops && id != c.id ==> c.registry.loops[id] == r.loops[id]
    ensures Valid(r) ==> forall id :: id in r.loops ==> c.registry.loops[id] == r.loops[id]
    ensures c.id in c.registry.loops && c.registry.loops[c.id] == LoopEngine.Create(c.id, sounds, options)
    ensures !c.registry.loops[c.id].playing
    ensures c.registry.sequences == r.sequences
  {
    var id := r.loopCounter;
    var l: LoopEngine.WfLoop := LoopEngine.Create(id, sounds, options);
    Created(r.(loops := r.loops[id := l], loopCounter := id + 1), id)
  }

  /** `createSequence`: the same for sequences, with their own counter. */
  function CreateSequence(r: Registry, pattern: seq<SequenceEngine.Beat>, options: SequenceEngine.SequenceOptions): (c: Created)
    ensures c.id == r.sequenceCounter && c.registry.sequenceCounter == r.sequenceCounter + 1
    ensures c.registry.loopCounter == r.loopCounter
    ensures Valid(r) ==> c.id !in r.sequences && Valid(c.registry)
    ensures c.registry.sequences.Keys == r.sequences.Keys + {c.id}
    ensures forall id :: id in r.sequences && id != c.id ==> c.registry.sequences[id] == r.sequences[id]
    ensures Valid(r) ==> forall id :: id in r.sequences ==> c.registry.sequences[id] == r.sequences[id]
    ensures c.id in c.registry.sequences && c.registry.sequences[c.id] == SequenceEngine.Create(c.id, pattern, options)
    ensures !c.registry.sequences[c.id].playing
    ensures c.registry.loops == r.loops
  {
    var id := r.sequenceCounter;
    Created(r.(sequences := r.sequences[id := SequenceEngine.Create(id, pattern, options)], sequenceCounter := id + 1), id)
  }

  /** `stopAll`: `stop` on every registered loop, then on every registered sequence.
      Nothing is removed; every instance ends not playing, with no live timer when the
      registry was valid; loops keep their counters and sequences rewind to slot 0. */
  function StopAll(r: Registry): (r': Registry)
    ensures r'.loops.Keys == r.loops.Keys && r'.sequences.Keys == r.sequences.Keys
    ensures r'.loopCounter == r.loopCounter && r'.sequenceCounter == r.sequenceCounter
    ensures forall id :: id in r'.loops ==>
              && !r'.loops[id].playing
              && LoopEngine.SameConfig(r.loops[id], r'.loops[id])
              && r'.loops[id].index == r.loops[id].index
              && r'.loops[id].repetition == r.loops[id].repetition
    ensures forall id :: id in r'.sequences ==>
              && !r'.sequences[id].playing
              && SequenceEngine.SameConfig(r.sequences[id], r'.sequences[id])
              && r'.sequences[id].beat == 0
    ensures Valid(r) ==> Valid(r')
    ensures Valid(r) ==> forall id :: id in r'.loops ==> r'.loops[id].timers == 0
    ensures Valid(r) ==> forall id :: id in r'.sequences ==> r'.sequences[id].timers == 0
  {
    r.(loops := map id | id in r.loops :: LoopEngine.Stop(r.loops[id]).after,
       sequences := map id | id in r.sequences :: SequenceEngine.Stop(r.sequences[id]).after)
  }

  /** `stopAll` twice is `stopAll` once: a second `stop` changes nothing. */
  lemma StopAllIsIdempotent(r: Registry)
    requires Valid(r)
    ensures StopAll(StopAll(r)) == StopAll(r)
  {
  }

  /** On a registry whose instances were never started (or are already stopped),
      `stopAll` changes nothing. */
  lemma StopAllAtRestChangesNothing(r: Registry)
    requires Valid(r)
    requires forall id :: id in r.loops ==> !r.loops[id].playing
    requires forall id :: id in r.sequences ==> !r.sequences[id].playing && r.sequences[id].beat == 0
    ensures StopAll(r) == r
  {
  }

  /** An event on one loop of the registry: that loop takes the engine's step and makes
      its calls, nothing else changes, and the registry stays valid. */
  function DriveLoop(r: Registry, id: nat, e: Schedule.Event): (out: Schedule.Transition<Registry>)
    requires id in r.loops
    ensures out.after.loops.Keys == r.loops.Keys && out.after.sequences == r.sequences
    ensures out.after.loopCounter == r.loopCounter && out.after.sequenceCounter == r.sequenceCounter
    ensures out.after.loops[id] == LoopEngine.Step(r.loops[id], e).after
    ensures out.emitted == LoopEngine.Step(r.loops[id], e).emitted
    ensures forall other :: other in r.loops && other != id ==> out.after.loops[other] == r.loops[other]
    ensures Valid(r) ==> Valid(out.after)
  {
    var t := LoopEngine.Step(r.loops[id], e);
    Schedule.Transition(r.(loops := r.loops[id := t.after]), t.emitted)
  }

  /** An event on one sequence of the registry: that sequence takes the engine's step
      and makes its calls, nothing else changes, and the registry stays valid. */
  function DriveSequence(r: Registry, id: nat, e: Schedule.Event): (out: Schedule.Transition<Registry>)
    requires id in r.sequences
    ensures out.after.sequences.Keys == r.sequences.Keys && out.after.loops == r.loops
    ensures out.after.loopCounter == r.loopCounter && out.after.sequenceCounter == r.sequenceCounter
    ensures out.after.sequences[id] == SequenceEngine.Step(r.sequences[id], e).after
    ensures out.emitted == SequenceEngine.Step(r.sequences[id], e).emitted
    ensures forall other :: other in r.sequences && other != id ==> out.after.sequences[other] == r.sequences[other]
    ensures Valid(r) ==> Valid(out.after)
  {
    var t := SequenceEngine.Step(r.sequences[id], e);
    Schedule.Transition(r.(sequences := r.sequences[id := t.after]), t.emitted)
  }
}

=== FILE: schedule.dfy ===
/** The timer abstraction both engines share. A live `setTimeout` is counted, not
    timed: a `Fire` event consumes one, and `clearTimeout` on the stored handle
    cancels at most one. */
module Schedule {
  import opened Voice

  /** What can happen to one loop or sequence: a control call, or its timer firing. */
  datatype Event = Start | Stop | Pause | Resume | Fire

  /** The state after one or more events, and the `play` calls made on the way, in order. */
  datatype Transition<+S> = Transition(after: S, emitted: seq<PlayRequest>)

  /** A trace of events, in order, through a step function; the calls of each event
      follow those of the events before it. */
  function Run<S>(step: (S, Event) -> Transition<S>, s: S, events: seq<Event>): (t: Transition<S>)
    decreases |events|
  {
    if events == [] then Transition(s, [])
    else
      var first := step(s, events[0]);
      var rest := Run(step, first.after, events[1..]);
      Transition(rest.after, first.emitted + rest.emitted)
  }

  /** A trace of two events is the two steps one after the other. */
  lemma RunPair<S>(step: (S, Event) -> Transition<S>, s: S, a: Event, b: Event)
    ensures var x := step(s, a);
            var y := step(x.after, b);
            Run(step, s, [a, b]) == Transition(y.after, x.emitted + y.emitted)
  {
    var x := step(s, a);
    var y := step(x.after, b);
    assert [b][1..] == [];
    assert Run(step, y.after, []) == Transition(y.after, []);
    assert Run(step, x.after, [b]) == Transition(y.after, y.emitted + []);
    assert y.emitted + [] == y.emitted;
    assert [a, b][1..] == [b];
  }

  /** Running two traces back to back is running their concatenation. */
  lemma {:induction false} RunAppend<S>(step: (S, Event) -> Transition<S>, s: S, a: seq<Event>, b: seq<Event>)
    ensures Run(step, s, a + b)
            == (var ta := Run(step, s, a); var tb := Run(step, ta.after, b); Transition(tb.after, ta.emitted + tb.emitted))
    decreases |a|
  {
    if a == [] {
      assert a + b == b;
    } else {
      assert (a + b)[0] == a[0];
      assert (a + b)[1..] == a[1..] + b;
      RunAppend(step, step(s, a[0]).after, a[1..], b);
    }
  }

  /** A property every single event preserves holds after every trace. */
  lemma {:induction false} RunKeeps<S>(step: (S, Event) -> Transition<S>, inv: S -> bool, s: S, events: seq<Event>)
    requires forall x, e :: inv(x) ==> inv(step(x, e).after)
    requires inv(s)
    ensures inv(Run(step, s, events).after)
    decreases |events|
  {
    if events != [] {
      RunKeeps(step, inv, step(s, events[0]).after, events[1..]);
    }
  }

  /** When every event makes at most one call, a trace makes at most one call per event. */
  lemma {:induction false} RunEmitsAtMostOnePerEvent<S>(step: (S, Event) -> Transition<S>, s: S, events: seq<Event>)
    requires forall x, e :: |step(x, e).emitted| <= 1
    ensures |Run(step, s, events).emitted| <= |events|
    decreases |events|
  {
    if events != [] {
      RunEmitsAtMostOnePerEvent(step, step(s, events[0]).after, events[1..]);
    }
  }

  /** A state on which a firing does nothing ignores any number of firings. */
  lemma {:induction false} IgnoresFires<S>(step: (S, Event) -> Transition<S>, s: S, k: nat)
    requires step(s, Fire) == Transition(s, [])
    ensures Run(step, s, Fires(k)) == Transition(s, [])
    decreases k
  {
    if k > 0 {
      assert Fires(k)[1..] == Fires(k - 1);
      IgnoresFires(step, s, k - 1);
    }
  }

  /** `clearTimeout(timeoutId)`: the handle names the most recently armed timer, so at most one goes. */
  function Cancel(timers: nat): (rest: nat)
    ensures timers <= 1 ==> rest == 0
    ensures timers > 0 ==> rest == timers - 1
  {
    if timers > 0 then timers - 1 else 0
  }

  /** A trace that ends on a state which ignores firings may be followed by any
      number of firings without changing anything. */
  lemma RunThenIgnoredFires<S>(step: (S, Event) -> Transition<S>, s: S, head: seq<Event>, k: nat)
    requires step(Run(step, s, head).after, Fire) == Transition(Run(step, s, head).after, [])
    ensures Run(step, s, head + Fires(k)) == Run(step, s, head)
  {
    RunAppend(step, s, head, Fires(k));
    IgnoresFires(step, Run(step, s, head).after, k);
    assert Run(step, s, head).emitted + [] == Run(step, s, head).emitted;
  }

  /** Once a start and k firings reach a state that ignores firings, any m >= k
      firings after the start end the same way. */
  lemma StartedRunSettles<S>(step: (S, Event) -> Transition<S>, s: S, k: nat, m: nat)
    requires k <= m
    requires step(Run(step, s, [Start] + Fires(k)).after, Fire) == Transition(Run(step, s, [Start] + Fires(k)).after, [])
    ensures Run(step, s, [Start] + Fires(m)) == Run(step, s, [Start] + Fires(k))
  {
    StartThenFires(k, m - k);
    RunThenIgnoredFires(step, s, [Start] + Fires(k), m - k);
  }

  /** A run of m timer firings and nothing else. */
  function Fires(m: nat): (es: seq<Event>)
    ensures |es| == m
    ensures forall i :: 0 <= i < m ==> es[i] == Fire
  {
    seq(m, _ => Fire)
  }

  /** A start followed by a+b firings is a start with a firings, then b more. */
  lemma StartThenFires(a: nat, b: nat)
    ensures [Start] + Fires(a + b) == ([Start] + Fires(a)) + Fires(b)
  {
  }

  /** One more firing after a start and m firings is one more step of the run. */
  lemma RunThenFire<S>(step: (S, Event) -> Transition<S>, s: S, m: nat)
    ensures var before := Run(step, s, [Start] + Fires(m));
            var fire := step(before.after, Fire);
            Run(step, s, [Start] + Fires(m + 1)) == Transition(fire.after, before.emitted + fire.emitted)
  {
    var prefix := [Start] + Fires(m);
    assert [Start] + Fires(m + 1) == prefix + [Fire];
    RunAppend(step, s, prefix, [Fire]);
    var before := Run(step, s, prefix);
    assert Run(step, before.after, [Fire]) == step(before.after, Fire) by {
      assert [Fire][1..] == [];
    }
  }

  /** Moving a cyclic cursor on by one: it wraps to 0 exactly after the last slot. */
  lemma NextSlot(t: nat, len: nat)
    requires len >= 1
    ensures (t + 1) % len == (if t % len + 1 == len then 0 else t % len + 1)
  {
    var q := t / len;
    var r := t % len;
    assert t == q * len + r;
    if r + 1 == len {
      assert t + 1 == (q + 1) * len;
      DivModUnique(t + 1, len, q + 1, 0);
    } else {
      assert t + 1 == q * len + (r + 1);
      DivModUnique(t + 1, len, q, r + 1);
    }
  }

  lemma DivModUnique(x: int, len: int, q: int, r: int)
    requires len >= 1 && 0 <= r < len && x == q * len + r
    ensures x % len == r && x / len == q
  {
    var q' := x / len;
    var r' := x % len;
    assert x == q' * len + r';
    assert (q - q') * len == r' - r;
    assert q - q' >= 1 ==> (q - q') * len >= len;
    assert q - q' <= -1 ==> (q - q') * len <= -len;
  }
}

=== FILE: sequence_engine.dfy ===
/** The sequence engine of `createSequence`: a fixed pattern of beats played one slot
    per tick at a tempo, once or looping over the whole pattern. */
module SequenceEngine {
  import opened Wrappers
  import opened Voice
  import Schedule

  /** One slot of a pattern, classified the way `_playBeat` tests it. */
  datatype Beat =
    | Silent                              // a falsy value: null, undefined, false, 0
    | Text(name: string)                  // a string; the empty string is falsy
    | Group(names: seq<string>)           // an array of names, truthy even when empty
    | Object(name: string, fields: Opts)  // an object with its own option fields
    | Other                               // any other truthy value, such as a number

  /** The `options` argument of `createSequence`; `None` is an absent field. */
  datatype SequenceOptions = SequenceOptions(bpm: Option<real>, loop: Option<bool>, volume: Option<real>)

  /** One sequence instance: its fixed configuration, then its closure state
      (`isPlaying`, `currentBeat`, and the live timers). */
  datatype Sequence = Sequence(
    id: nat, pattern: seq<Beat>, bpm: real, looping: bool, volume: real,
    playing: bool, beat: nat, timers: nat)

  const DefaultBpm: real := 120.0

  /** Why `setBPM` throws. */
  datatype Fault = AssignmentToConstant

  /** `createSequence`: `bpm || 120`, no looping and volume 1.0 by default; the
      instance starts idle at slot 0 with no timer. */
  function Create(id: nat, pattern: seq<Beat>, options: SequenceOptions): (s: Sequence)
    ensures s.id == id && s.pattern == pattern
    ensures options.bpm.None? || options.bpm == Some(0.0) ==> s.bpm == DefaultBpm
    ensures options.bpm.Some? && options.bpm != Some(0.0) ==> s.bpm == options.bpm.value
    ensures s.looping <==> options.loop == Some(true)
    ensures s.volume == (if options.volume.Some? then options.volume.value else 1.0)
    ensures !s.playing && s.beat == 0 && s.timers == 0
  {
    var bpm := if options.bpm.None? || options.bpm == Some(0.0) then DefaultBpm else options.bpm.value;
    Sequence(id, pattern, bpm, options.loop.GetOr(false), options.volume.GetOr(1.0), false, 0, 0)
  }

  /** The timer discipline: at most one live timer, one exactly while playing, and
      the cursor inside the pattern (or at 0 for an empty one). */
  predicate Consistent(s: Sequence) {
    && s.timers <= 1
    && (s.playing <==> s.timers == 1)
    && (s.beat == 0 || s.beat < |s.pattern|)
  }

  /** The fixed configuration is the same in both records. */
  predicate SameConfig(a: Sequence, b: Sequence) {
    a.id == b.id && a.pattern == b.pattern && a.bpm == b.bpm && a.looping == b.looping && a.volume == b.volume
  }

  /** `this.pattern[i]`: undefined, hence silent, past the end. */
  function BeatAt(s: Sequence, i: nat): Beat {
    if i < |s.pattern| then s.pattern[i] else Silent
  }

  /** The `play` calls one beat makes: none for a falsy beat or an unrecognised
      truthy one, one per name of an array (each at the sequence volume, through
      `playMultiple`), one at the sequence volume for a string, and one for an object
      whose own fields override the sequence volume. */
  function BeatCalls(volume: real, b: Beat): (calls: seq<PlayRequest>)
    ensures b.Silent? || b.Other? || b == Text("") ==> calls == []
    ensures b.Text? && b.name != "" ==> calls == [PlayRequest(b.name, VolumeOnly(volume))]
    ensures b.Group? ==> |calls| == |b.names|
    ensures b.Group? ==> forall k :: 0 <= k < |calls| ==> calls[k] == PlayRequest(b.names[k], VolumeOnly(volume))
    ensures b.Object? ==> |calls| == 1 && calls[0].name == b.name
    ensures b.Object? ==> Overrides(VolumeOnly(volume), b.fields, calls[0].opts)
  {
    match b
    case Silent => []
    case Text(name) => if name == "" then [] else [PlayRequest(name, VolumeOnly(volume))]
    case Group(names) =>
      seq(|names|, k requires 0 <= k < |names| => Request(NoOpts, Ref(names[k], VolumeOnly(volume))))
    case Object(name, fields) => [Request(VolumeOnly(volume), Ref(name, fields))]
    case Other => []
  }

  /** `stop`: not playing, the live timer cancelled, and the cursor back at slot 0. */
  function Stop(s: Sequence): (t: Schedule.Transition<Sequence>)
    ensures SameConfig(s, t.after)
    ensures !t.after.playing && t.emitted == [] && t.after.beat == 0
    ensures s.timers <= 1 ==> t.after.timers == 0
  {
    Schedule.Transition(s.(playing := false, timers := Schedule.Cancel(s.timers), beat := 0), [])
  }

  /** `pause`: not playing, the live timer cancelled, the cursor kept. */
  function Pause(s: Sequence): (t: Schedule.Transition<Sequence>)
    ensures SameConfig(s, t.after)
    ensures !t.after.playing && t.emitted == [] && t.after.beat == s.beat
    ensures s.timers <= 1 ==> t.after.timers == 0
  {
    Schedule.Transition(s.(timers := Schedule.Cancel(s.timers), playing := false), [])
  }

  /** `_playBeat`: when playing, sound the beat at the cursor and move on; past the
      last slot, wrap to 0 and re-arm when looping, or stop; otherwise re-arm. */
  function Tick(s: Sequence): (t: Schedule.Transition<Sequence>)
    ensures SameConfig(s, t.after)
    ensures !s.playing ==> t == Schedule.Transition(s, [])
    ensures s.playing ==> t.emitted == BeatCalls(s.volume, BeatAt(s, s.beat))
    ensures s.playing && s.beat + 1 < |s.pattern| ==>
              t.after.playing && t.after.beat == s.beat + 1 && t.after.timers == s.timers + 1
    ensures s.playing && s.beat + 1 >= |s.pattern| && s.looping ==>
              t.after.playing && t.after.beat == 0 && t.after.timers == s.timers + 1
    ensures s.playing && s.beat + 1 >= |s.pattern| && !s.looping ==>
              !t.after.playing && t.after.beat == 0 && t.after.timers == Schedule.Cancel(s.timers)
  {
    if !s.playing then Schedule.Transition(s, [])
    else
      var calls := BeatCalls(s.volume, BeatAt(s, s.beat));
      var next := s.beat + 1;
      if next >= |s.pattern| then
        if s.looping then Schedule.Transition(s.(beat := 0, timers := s.timers + 1), calls)
        else Schedule.Transition(Stop(s.(beat := next)).after, calls)
      else Schedule.Transition(s.(beat := next, timers := s.timers + 1), calls)
  }

  /** `start`: a no-op while playing; otherwise rewind to slot 0 and play it at once. */
  function Start(s: Sequence): (t: Schedule.Transition<Sequence>)
    ensures SameConfig(s, t.after)
    ensures s.playing ==> t == Schedule.Transition(s, [])
    ensures !s.playing ==> t.emitted == BeatCalls(s.volume, BeatAt(s, 0))
  {
    if s.playing then Schedule.Transition(s, [])
    else Tick(s.(playing := true, beat := 0))
  }

  /** `resume`: a no-op while playing; otherwise play the beat at the kept cursor at once. */
  function Resume(s: Sequence): (t: Schedule.Transition<Sequence>)
    ensures SameConfig(s, t.after)
    ensures s.playing ==> t == Schedule.Transition(s, [])
    ensures !s.playing ==> t.emitted == BeatCalls(s.volume, BeatAt(s, s.beat))
  {
    if s.playing then Schedule.Transition(s, [])
    else Tick(s.(playing := true))
  }

  /** The timer fires: with no live timer nothing happens; otherwise it is used up
      and `_playBeat` runs. */
  function Fire(s: Sequence): (t: Schedule.Transition<Sequence>)
    ensures SameConfig(s, t.after)
    ensures s.timers == 0 ==> t == Schedule.Transition(s, [])
  {
    if s.timers == 0 then Schedule.Transition(s, [])
    else Tick(s.(timers := s.timers - 1))
  }

  /** `setBPM` assigns to the constant bindings `bpm` and `beatDuration`, so it always
      throws and leaves the sequence as it was. */
  function SetBpm(s: Sequence, bpm: real): (r: Result<Sequence, Fault>)
    ensures r.Failure?
  {
    Failure(AssignmentToConstant)
  }

  /** One event; every event keeps the timer discipline. */
  function Step(s: Sequence, e: Schedule.Event): (t: Schedule.Transition<Sequence>)
    ensures SameConfig(s, t.after)
    ensures Consistent(s) ==> Consistent(t.after)
  {
    match e
    case Start => Start(s)
    case Stop => Stop(s)
    case Pause => Pause(s)
    case Resume => Resume(s)
    case Fire => Fire(s)
  }

  /** Along any trace of events from a consistent state, at most one timer is live,
      one exactly while the sequence plays, and the cursor is 0 or inside the pattern
      (always 0 for an empty pattern). */
  lemma TimerDiscipline(s: Sequence, events: seq<Schedule.Event>)
    requires Consistent(s)
    ensures var t := Schedule.Run(Step, s, events);
            && Consistent(t.after)
            && t.after.timers <= 1
            && (t.after.playing <==> t.after.timers == 1)
            && (t.after.beat == 0 || t.after.beat < |t.after.pattern|)
  {
    Schedule.RunKeeps(Step, (x: Sequence) => Consistent(x), s, events);
  }

  /** A freshly created sequence satisfies the timer discipline. */
  lemma CreatedIsConsistent(id: nat, pattern: seq<Beat>, options: SequenceOptions)
    ensures Consistent(Create(id, pattern, options))
  {
  }

  /** The slot played at tick k: k mod P. */
  function Slot(s: Sequence, k: nat): nat {
    if |s.pattern| == 0 then 0 else k % |s.pattern|
  }

  /** The calls of the first `count` ticks when slot k mod P sounds at tick k. */
  function Score(s: Sequence, count: nat): seq<PlayRequest>
    decreases count
  {
    if count == 0 then [] else Score(s, count - 1) + BeatCalls(s.volume, BeatAt(s, Slot(s, count - 1)))
  }

  /** A sequence started from rest and then driven only by its timer: after the start
      and m firings (fewer than P when it does not loop) it has sounded slots
      0, 1, ..., m mod P in that order; a looping one is still playing at slot
      (m+1) mod P, and a one-shot one is playing at slot m+1 until its last slot,
      after which it has stopped with the cursor reset to 0 and no timer. */
  lemma {:induction false} StartedSequencePlaysInOrder(s: Sequence, m: nat)
    requires !s.playing && s.timers == 0 && |s.pattern| >= 1
    requires s.looping || m < |s.pattern|
    ensures var t := Schedule.Run(Step, s, [Schedule.Start] + Schedule.Fires(m));
            && SameConfig(s, t.after)
            && t.emitted == Score(s, m + 1)
            && t.after.beat == (m + 1) % |s.pattern|
            && (t.after.playing <==> s.looping || m + 1 < |s.pattern|)
            && t.after.timers == (if t.after.playing then 1 else 0)
    decreases m
  {
    if m == 0 {
      assert Schedule.Run(Step, s, [Schedule.Start] + Schedule.Fires(0)) == Start(s) by {
        assert [Schedule.Start] + Schedule.Fires(0) == [Schedule.Start];
      }
      StartSoundsSlotZero(s);
    } else {
      StartedSequencePlaysInOrder(s, m - 1);
      var prefix := [Schedule.Start] + Schedule.Fires(m - 1);
      var before := Schedule.Run(Step, s, prefix);
      var fire := Fire(before.after);
      assert Schedule.Run(Step, s, [Schedule.Start] + Schedule.Fires(m))
             == Schedule.Transition(fire.after, before.emitted + fire.emitted) by {
        Schedule.RunThenFire(Step, s, m - 1);
      }
      FireAdvances(s, before.after, m);
    }
  }

  /** The first tick after `start` sounds slot 0 and counts as tick 1. */
  lemma StartSoundsSlotZero(s: Sequence)
    requires !s.playing && s.timers == 0 && |s.pattern| >= 1
    ensures var t := Start(s);
            && SameConfig(s, t.after)
            && t.emitted == Score(s, 1)
            && t.after.beat == 1 % |s.pattern|
            && (t.after.playing <==> s.looping || 1 < |s.pattern|)
            && t.after.timers == (if t.after.playing then 1 else 0)
  {
  }

  /** A firing after m ticks sounds slot m mod P and counts as tick m+1. */
  lemma FireAdvances(s: Sequence, before: Sequence, m: nat)
    requires |s.pattern| >= 1 && SameConfig(s, before)
    requires s.looping || m < |s.pattern|
    requires before.beat == m % |s.pattern|
    requires before.playing && before.timers == 1
    ensures var t := Fire(before);
            && SameConfig(s, t.after)
            && t.emitted == BeatCalls(s.volume, BeatAt(s, Slot(s, m)))
            && t.after.beat == (m + 1) % |s.pattern|
            && (t.after.playing <==> s.looping || m + 1 < |s.pattern|)
            && t.after.timers == (if t.after.playing then 1 else 0)
  {
    var len := |s.pattern|;
    Schedule.NextSlot(m, len);
    if !s.looping {
      Schedule.DivModUnique(m, len, 0, m);
    }
  }

  /** A one-shot sequence of P slots plays slots 0 .. P-1 once each, in order, and
      then rests -- not playing, cursor reset to 0, no timer -- whatever further
      firings arrive. An empty pattern sounds nothing and rests after the start. */
  lemma OneShotSequencePlaysOnce(s: Sequence, m: nat)
    requires !s.playing && s.timers == 0 && !s.looping
    requires m + 1 >= |s.pattern|
    ensures var t := Schedule.Run(Step, s, [Schedule.Start] + Schedule.Fires(m));
            && t.emitted == SlotsUpTo(s, |s.pattern|)
            && !t.after.playing && t.after.beat == 0 && t.after.timers == 0
  {
    if |s.pattern| == 0 {
      assert Schedule.Run(Step, s, [Schedule.Start] + Schedule.Fires(0)) == Start(s) by {
        assert [Schedule.Start] + Schedule.Fires(0) == [Schedule.Start];
      }
      Schedule.StartedRunSettles(Step, s, 0, m);
    } else {
      OneShotPassEndsAtRest(s);
      ScoreWithinOnePass(s, |s.pattern|);
      Schedule.StartedRunSettles(Step, s, |s.pattern| - 1, m);
    }
  }

  /** The start and the first P-1 firings of a one-shot sequence sound its whole
      pattern and leave it at rest, so a further firing does nothing. */
  lemma OneShotPassEndsAtRest(s: Sequence)
    requires !s.playing && s.timers == 0 && !s.looping && |s.pattern| >= 1
    ensures var t := Schedule.Run(Step, s, [Schedule.Start] + Schedule.Fires(|s.pattern| - 1));
            && t.emitted == Score(s, |s.pattern|)
            && !t.after.playing && t.after.beat == 0 && t.after.timers == 0
            && Step(t.after, Schedule.Fire) == Schedule.Transition(t.after, [])
  {
    var len := |s.pattern|;
    StartedSequencePlaysInOrder(s, len - 1);
    Schedule.DivModUnique(len, len, 1, 0);
  }

  /** In the first P ticks of a pattern, tick k sounds slot k itself. */
  lemma {:induction false} ScoreWithinOnePass(s: Sequence, count: nat)
    requires count <= |s.pattern|
    ensures Score(s, count) == SlotsUpTo(s, count)
    decreases count
  {
    if count > 0 {
      ScoreWithinOnePass(s, count - 1);
      Schedule.DivModUnique(count - 1, |s.pattern|, 0, count - 1);
    }
  }

  /** The calls of slots 0 .. count-1, in order. */
  function SlotsUpTo(s: Sequence, count: nat): seq<PlayRequest>
    requires count <= |s.pattern|
    decreases count
  {
    if count == 0 then [] else SlotsUpTo(s, count - 1) + BeatCalls(s.volume, s.pattern[count - 1])
  }

  /** `pause` keeps the cursor and `stop` rewinds it, so a `resume` after `pause` sounds
      the slot at the kept cursor, while one after `stop` sounds slot 0. */
  lemma PauseKeepsStopRewinds(s: Sequence)
    requires Consistent(s) && s.playing
    ensures Schedule.Run(Step, s, [Schedule.Pause, Schedule.Resume]).emitted == BeatCalls(s.volume, BeatAt(s, s.beat))
    ensures Schedule.Run(Step, s, [Schedule.Stop, Schedule.Resume]).emitted == BeatCalls(s.volume, BeatAt(s, 0))
  {
    Schedule.RunPair(Step, s, Schedule.Pause, Schedule.Resume);
    Schedule.RunPair(Step, s, Schedule.Stop, Schedule.Resume);
  }

  /** `stop` on a stopped sequence changes nothing further, and on a never-started one
      nothing at all. */
  lemma StopIsIdempotent(s: Sequence)
    requires Consistent(s)
    ensures Stop(Stop(s).after) == Stop(s)
    ensures !s.playing && s.beat == 0 ==> Stop(s).after == s
  {
  }

  /** A looping `["bassDrum", [], "snareDrum"]` at 120 bpm: bass drum, nothing, snare
      drum, then bass drum again on the fourth tick. */
  lemma BassSnareExample(id: nat)
    ensures var s := Create(id, [Text("bassDrum"), Group([]), Text("snareDrum")], SequenceOptions(Some(120.0), Some(true), None));
            var t := Schedule.Run(Step, s, [Schedule.Start] + Schedule.Fires(3));
            var bass := PlayRequest("bassDrum", VolumeOnly(1.0));
            var snare := PlayRequest("snareDrum", VolumeOnly(1.0));
            && t.emitted == [bass, snare, bass]
            && t.after.playing && t.after.beat == 1
  {
    var s := Create(id, [Text("bassDrum"), Group([]), Text("snareDrum")], SequenceOptions(Some(120.0), Some(true), None));
    StartedSequencePlaysInOrder(s, 3);
    assert Slot(s, 0) == 0 && Slot(s, 1) == 1 && Slot(s, 2) == 2 && Slot(s, 3) == 0;
    assert BeatCalls(s.volume, Group([])) == [];
  }
}

=== FILE: voice.dfy ===
/** Single-shot playback: the option fields `play` reads, the not-loaded guard of
    `play`, and the `playMultiple` fan-out with its per-entry override. */
module Voice {
  import opened Wrappers

  /** The option fields `play` reads; `None` is a field that is absent (undefined). */
  datatype Opts = Opts(volume: Option<real>, delay: Option<real>, duration: Option<real>)

  const NoOpts: Opts := Opts(None, None, None)

  /** The options object `{ volume }` the engines pass down. */
  function VolumeOnly(v: real): Opts {
    Opts(Some(v), None, None)
  }

  function Pick<T>(under: Option<T>, over: Option<T>): Option<T> {
    if over.Some? then over else under
  }

  /** Object spread `{ ...under, ...over }` restricted to the fields `play` reads. */
  function Spread(under: Opts, over: Opts): Opts {
    Opts(Pick(under.volume, over.volume), Pick(under.delay, over.delay), Pick(under.duration, over.duration))
  }

  /** `merged` carries every field `fields` has, and the `shared` value of every field it lacks. */
  ghost predicate Overrides(shared: Opts, fields: Opts, merged: Opts) {
    && merged.volume == (if fields.volume.Some? then fields.volume else shared.volume)
    && merged.delay == (if fields.delay.Some? then fields.delay else shared.delay)
    && merged.duration == (if fields.duration.Some? then fields.duration else shared.duration)
  }

  /** A list entry: a bare sound name, or an object `{ name, volume?, delay?, duration? }`. */
  datatype SoundRef = Named(name: string) | Ref(name: string, fields: Opts)

  /** One call of `play(name, options)`. */
  datatype PlayRequest = PlayRequest(name: string, opts: Opts)

  /** The call a list entry turns into under the options it shares with its list:
      a string keeps the shared options, an object's own fields override them. */
  function Request(shared: Opts, entry: SoundRef): (q: PlayRequest)
    ensures q.name == entry.name
    ensures entry.Named? ==> q.opts == shared
    ensures entry.Ref? ==> Overrides(shared, entry.fields, q.opts)
  {
    match entry
    case Named(name) => PlayRequest(name, shared)
    case Ref(name, fields) => PlayRequest(name, Spread(shared, fields))
  }

  /** One playback instance: gain, start offset from now, and optional stop offset from now
      (the start offset plus the duration). */
  datatype Voice = Voice(name: string, gain: real, startOffset: real, stopOffset: Option<real>)

  /** `play`: null when the name has no decoded buffer; otherwise a voice with
      volume 1.0 and no delay by default, stopped early only for a truthy duration. */
  function Play(loaded: set<string>, q: PlayRequest): (v: Option<Voice>)
    ensures v.None? <==> q.name !in loaded
    ensures v.Some? ==> v.value.name == q.name
    ensures v.Some? ==> v.value.gain == (if q.opts.volume.Some? then q.opts.volume.value else 1.0)
    ensures v.Some? ==> v.value.startOffset == (if q.opts.delay.Some? then q.opts.delay.value else 0.0)
    ensures v.Some? ==> (v.value.stopOffset.Some? <==> q.opts.duration.Some? && q.opts.duration.value != 0.0)
    ensures v.Some? && v.value.stopOffset.Some? ==> v.value.stopOffset.value == v.value.startOffset + q.opts.duration.value
  {
    if q.name !in loaded then None
    else
      var start := q.opts.delay.GetOr(0.0);
      var stop := if q.opts.duration.Some? && q.opts.duration.value != 0.0
                  then Some(start + q.opts.duration.value) else None;
      Some(Voice(q.name, q.opts.volume.GetOr(1.0), start, stop))
  }

  /** The first argument of `playMultiple`: an array of entries, or anything else. */
  datatype Batch = NotAnArray | Entries(entries: seq<SoundRef>)

  /** The voices of the entries processed so far, pushed in list order. */
  function Fanout(loaded: set<string>, entries: seq<SoundRef>, shared: Opts): (vs: seq<Voice>)
    ensures |vs| <= |entries|
    ensures forall k :: 0 <= k < |vs| ==> vs[k].name in loaded
    decreases |entries|
  {
    if entries == [] then []
    else
      var earlier := Fanout(loaded, entries[..|entries| - 1], shared);
      match Play(loaded, Request(shared, entries[|entries| - 1]))
      case Some(v) => earlier + [v]
      case None => earlier
  }

  /** `playMultiple`: nothing for a non-array; otherwise the voices of the loaded entries. */
  function PlayMultiple(loaded: set<string>, batch: Batch, shared: Opts): (vs: seq<Voice>)
    ensures batch.NotAnArray? ==> vs == []
    ensures batch.Entries? ==> |vs| <= |batch.entries|
    ensures forall k :: 0 <= k < |vs| ==> vs[k].name in loaded
  {
    match batch
    case NotAnArray => []
    case Entries(entries) => Fanout(loaded, entries, shared)
  }

  /** The positions of the entries whose name has a decoded buffer, in increasing order. */
  function Kept(loaded: set<string>, entries: seq<SoundRef>): (ks: seq<nat>)
    ensures forall k :: 0 <= k < |ks| ==> ks[k] < |entries| && entries[ks[k]].name in loaded
    ensures forall k, k' :: 0 <= k < k' < |ks| ==> ks[k] < ks[k']
    ensures forall j :: 0 <= j < |entries| && entries[j].name in loaded ==> j in ks
    decreases |entries|
  {
    if entries == [] then []
    else
      var earlier := Kept(loaded, entries[..|entries| - 1]);
      if entries[|entries| - 1].name in loaded then earlier + [|entries| - 1] else earlier
  }

  /** `playMultiple` on an array returns exactly one voice per loaded entry, in input
      order, each built from that entry's call with its fields over the shared options. */
  lemma {:induction false} PlayMultipleKeepsLoadedInOrder(loaded: set<string>, entries: seq<SoundRef>, shared: Opts)
    ensures var vs := PlayMultiple(loaded, Entries(entries), shared);
            var ks := Kept(loaded, entries);
            && |vs| == |ks|
            && forall k :: 0 <= k < |ks| ==> Play(loaded, Request(shared, entries[ks[k]])) == Some(vs[k])
    decreases |entries|
  {
    if entries != [] {
      var init := entries[..|entries| - 1];
      PlayMultipleKeepsLoadedInOrder(loaded, init, shared);
      var ks0 := Kept(loaded, init);
      forall k | 0 <= k < |ks0|
        ensures entries[ks0[k]] == init[ks0[k]]
      {
      }
    }
  }

  /** When every entry is loaded, `playMultiple` returns one voice per entry, entry by entry. */
  lemma AllLoadedPlaysEveryEntry(loaded: set<string>, entries: seq<SoundRef>, shared: Opts)
    requires forall j :: 0 <= j < |entries| ==> entries[j].name in loaded
    ensures var vs := PlayMultiple(loaded, Entries(entries), shared);
            && |vs| == |entries|
            && forall j :: 0 <= j < |entries| ==> Play(loaded, Request(shared, entries[j])) == Some(vs[j])
  {
    PlayMultipleKeepsLoadedInOrder(loaded, entries, shared);
    KeptAllPositions(loaded, entries);
  }

  /** With every entry loaded, the kept positions are 0, 1, ..., |entries|-1. */
  lemma {:induction false} KeptAllPositions(loaded: set<string>, entries: seq<SoundRef>)
    requires forall j :: 0 <= j < |entries| ==> entries[j].name in loaded
    ensures |Kept(loaded, entries)| == |entries|
    ensures forall j :: 0 <= j < |entries| ==> Kept(loaded, entries)[j] == j
    decreases |entries|
  {
    if entries != [] {
      var init := entries[..|entries| - 1];
      assert forall j :: 0 <= j < |init| ==> init[j] == entries[j];
      KeptAllPositions(loaded, init);
    }
  }

  /** Example: `playMultiple([{name: "crashCymbal", volume: 0.5}], {volume: 1.0})` plays at volume 0.5. */
  lemma EntryVolumeWins(loaded: set<string>)
    requires "crashCymbal" in loaded
    ensures PlayMultiple(loaded, Entries([Ref("crashCymbal", VolumeOnly(0.5))]), VolumeOnly(1.0))
            == [Voice("crashCymbal", 0.5, 0.0, None)]
  {
  }

  /** Example: `play("nonexistentSound")` is null when no such buffer was decoded. */
  lemma UnknownSoundIsNull(loaded: set<string>)
    requires "nonexistentSound" !in loaded
    ensures Play(loaded, PlayRequest("nonexistentSound", NoOpts)) == None
  {
  }
}

=== FILE: wrappers.dfy ===
/** The optional-value and success-or-failure types shared by the model. */
module Wrappers {

  /** An optional value: `None` stands for an absent (undefined) field or a null result. */
  datatype Option<+T> = None | Some(value: T) {

    /** The wrapped value, or `default` when absent. */
    function GetOr(default: T): T {
      match this
      case Some(v) => v
      case None => default
    }
  }

  /** The outcome of a call that may throw. */
  datatype Result<+R, +E> = Success(value: R) | Failure(error: E)
}
